=== FILE: README.md ===
# homework_bot — a Dafny model of the polling bot's decisions

The bot polls a homework-status API every ten minutes and relays changes
to one Telegram chat. Almost all of `homework.py` is I/O; this project
models the logic in between as pure functions over an immutable JSON
datatype and proves what that logic promises:

- `Json.Value` is a parsed payload; `Access` gives the three Python
  operations the bot applies to payloads of unknown shape (`in`, `.get`,
  `[key]`) together with the exception CPython raises on the wrong type.
- `Errors.Error` is the set of exceptions that reach the loop's broad
  handler; `Errors.Describe` stands for `str(error)`.
- `Validator.CheckResponse` is `check_response`; `Status.ParseStatus` with
  the table `Status.Verdicts` is `parse_status` with `HOMEWORK_VERDICTS`;
  `Tokens.CheckTokens` is `check_tokens`.
- `Bot.Step` is one iteration of the `while True` loop of `main`, over the
  state `(cursor, prev_msg)`. Its input `Bot.Cycle` holds the API's outcome
  (an exception or a parsed body), the clock reading used for the cursor
  default, and the messaging client as a function from message to reply
  (accepted, refused by the library, or another exception).
  `Bot.Run` folds the step over a sequence of cycles.

Behaviour kept exactly as the code has it:

- `parse_status` looks the status up in the table (line 88) before it
  tests membership (line 89). An unknown status therefore raises the
  lookup's `KeyError` (or a `TypeError` for an unhashable list or dict),
  and the "unknown status" `ValueError` of lines 89-90 is never raised.
  The `raise ValueError('Неизвестный статус работы - …')` at lines 89-90
  is written as the unknown-status error, but line 88 raises first, so that
  `raise` is dead code. The model keeps the code's order;
  `Status.ValueErrorUnreachable` proves the branch dead.
- Line 113 calls `response.get` before `check_response` runs. A payload
  that is not a mapping fails there with an `AttributeError`, never with
  the validator's `TypeError`, and the cursor stays put. A mapping moves
  the cursor even when validation then fails.
- The cursor takes whatever value `current_date` holds, not only integers.
- A failed delivery on the success path is caught and reported like any
  other failure. A failed delivery of the failure report escapes the
  handler: `Bot.Step` returns `Crash` (`Bot.StepCrashesExactlyWhen`).
  `send_message` wraps only the library's `TelegramError`; any other
  exception of the client passes through under its own kind.
- `prev_msg` changes only after a delivery succeeds, so whatever the API
  and the messaging API do, delivered messages never repeat back to back
  (`Bot.RunNeverRepeats`).

## Model

| member | source | states |
|---|---|---|
| Json.FalsyExactly | homework.py:45 | the values the `or` treats as false are exactly `None`, `False`, `0`, `0.0`, the empty string, the empty list and the empty dict |
| Json.Text | homework.py:91 | the f-string shows a string name as itself, `None` as "None" and booleans as "True"/"False" |
| Errors.Describe | homework.py:128 | `str(error)` of a `KeyError` raised with a string is that string in quotes (lines 85 and 88); of every other exception it is the exception's own text |
| Access.In | homework.py:84 | `key in v` is dict membership for a dict and element equality for a list; it raises exactly for values that are not dicts, lists or strings |
| Access.Get | homework.py:113-115 | `v.get(key, default)` raises an attribute error exactly when `v` is not a dict; on a dict it yields the key's value or else the default |
| Access.Index | homework.py:86 | `v[key]` succeeds exactly on a dict that has the key and returns its value; a missing key raises `KeyError` of that key; a non-dict raises a type error |
| Validator.CheckResponse | homework.py:68-78 | succeeds exactly for a mapping with both `homeworks` and `current_date` whose `homeworks` is a list, and then returns that list unchanged; the not-a-dict type error happens exactly for non-mappings; the missing-key error exactly for mappings lacking a key; the not-a-list type error exactly when both keys are present and `homeworks` is not a list |
| Validator.EmptyListAccepted | homework.py:75-78 | an empty `homeworks` list is a success with the empty list |
| Status.Lookup | homework.py:88 | the table lookup succeeds exactly for one of the three status strings, giving its verdict text; lists and dicts raise a type error, every other value raises `KeyError` of itself |
| Status.ParseStatus | homework.py:81-91 | succeeds exactly for a dict with `homework_name`, `status` and a known status, and then returns the sentence built from the name and that status's verdict; a dict missing either key raises the missing-field `KeyError`; a non-dict always fails with a type error or that `KeyError` |
| Status.UnknownStatusFailsAtLookup | homework.py:87-89 | for a record with both keys and an unknown status, the formatter fails with exactly the lookup's error, a `KeyError` of the status when it is a string |
| Status.ValueErrorUnreachable | homework.py:88-90 | no record makes the formatter raise the unknown-status `ValueError` |
| Status.SentenceMentionsNameAndVerdict | homework.py:91 | the sentence for a valid record contains the homework's name and the exact verdict text of its status |
| Status.SentenceDeterminesVerdict | homework.py:91 | two sentences about the same name are equal only when their verdicts are equal |
| Status.StatusChangeChangesSentence | homework.py:25-29 | two valid records with the same name and different statuses give different sentences, so a status change is never suppressed as a repeat |
| Tokens.AllGiven | homework.py:97 | `all` over environment values is true exactly when every value is set and non-empty |
| Tokens.CheckTokens | homework.py:94-97 | true exactly when all three credentials are set and non-empty |
| Tokens.OneMissingCredentialFails | homework.py:97 | any one absent or empty credential makes the check fail |
| Bot.Start | homework.py:100-108 | the loop is entered exactly when the token check passes, with the clock as cursor and an empty last message; otherwise start-up stops with the missing-token message |
| Bot.RequestStamp | homework.py:45 | a truthy cursor is sent as `from_date` unchanged, a falsy one is replaced by the clock, so a non-zero clock never yields a falsy `from_date` |
| Bot.SendMessage | homework.py:32-40 | a send passes exactly when the client accepts the message; the library's refusal raises `TelegramError` wrapping its text; any other exception of the client passes through unchanged |
| Bot.Poll | homework.py:111-120 | an API exception leaves the cursor and is the cycle's error; a non-dict body leaves the cursor and fails with an attribute error; a dict moves the cursor to `current_date` or the clock even when validation fails; a valid payload yields "no new statuses" for an empty list and the first homework's sentence otherwise |
| Bot.NoticeNeverEmpty | homework.py:117-128 | no message a cycle calls for is empty |
| Bot.Notice | homework.py:128 | a failure becomes a message starting with the failure heading |
| Bot.Report | homework.py:127-133 | a failure message equal to the last one changes nothing; a new one that the client accepts is delivered and remembered; the handler crashes exactly when the message is new and its delivery fails, with the exception of that delivery |
| Bot.Step | homework.py:110-133 | a delivered message always differs from the previous last message and becomes the new one; with nothing delivered the last message is unchanged; the cursor is the one the try block left; a new candidate that the client accepts is delivered and remembered |
| Bot.StepCrashesExactlyWhen | homework.py:121-133 | a cycle crashes exactly when the failure report it has to send is new and not accepted: after an API or validation failure, or after a new candidate whose delivery failed |
| Bot.StepDeduplicates | homework.py:121-132 | when the client accepts the message a cycle calls for (or it repeats the last one), the cycle does not crash and delivers that message (candidate or failure notice) exactly when it differs from the last one, which it then becomes |
| Bot.FailuresReachHandler | homework.py:111-133 | every exception of the try block, and the exception of a failed delivery of a new candidate, is handed to the handler with the cursor the try block left |
| Bot.NoticeIgnoresCursorAndClock | homework.py:112-120 | the message a cycle calls for depends on the API's outcome only |
| Bot.OnlyFirstHomeworkMatters | homework.py:117-118 | valid payloads whose homework lists share their first element call for the same message |
| Bot.RefusedSendIsReported | homework.py:121-133 | a refused delivery on the success path is reported as a `TelegramError` failure message, keeping the updated cursor |
| Bot.Run | homework.py:110-135 | a run delivers at most one message per cycle and never crashes when every cycle's client accepts everything |
| Bot.RunNeverRepeats | homework.py:108-133 | whatever the APIs do, delivered messages never repeat back to back, the first differs from the starting last message, and a running loop's last message is the last one delivered |
| Bot.RepeatedMessageSentOnce | homework.py:121-132 | when the first cycle's client accepts the message, two consecutive cycles calling for the same message deliver it once if it is new and never otherwise |
| Bot.DifferentMessagesSentTwice | homework.py:121-125 | when each cycle's client accepts its message, two consecutive cycles calling for different messages, the first new, deliver both in order |
| Bot.FirstCycleAlwaysSends | homework.py:107-123 | right after start-up, the first cycle delivers its message whenever the client accepts it |
| Bot.ApprovedHomeworkAnnounced | homework.py:110-123 | a payload with one approved homework "hw1" and `current_date` 1000, with a client that accepts the announcement, delivers the approved-verdict sentence for "hw1" and moves the cursor to 1000 |
| Bot.EmptyListAnnounced | homework.py:117-125 | a payload with no homeworks and `current_date` 2000, with a client that accepts "Нет новых статусов", calls for that message, delivered only when new, and moves the cursor to 2000 |
| Bot.ApiFailureReported | homework.py:127-132 | a failed API call whose report "Сбой в работе программы: " followed by the error text is new, with a client that accepts it, delivers that report, keeps the cursor and does not crash |

## Left out

- `get_api_answer` (homework.py:43-65): the HTTP request, the status-code test and JSON decoding are network I/O; their result is the `Bot.Fetch` input of a cycle. Only the choice of `from_date` (line 45) is modelled.
- `telegram.Bot` and the transport inside `send_message` (homework.py:36, 106): a foreign client, modelled as a function from message to reply.
- Environment loading and module globals (homework.py:13-22): the credentials are a `Tokens.Credentials` parameter.
- `sys.exit` (homework.py:105) is the failure result of `Bot.Start`.
- Logging (homework.py:35, 40, 53, 70, 83, 96, 104, 125, 129, 133, 139-143): no effect on the bot's decisions.
- `time.time()` and `time.sleep(RETRY_PERIOD)` (homework.py:45, 107, 114, 135): the clock is a parameter and the delay has no effect on the state.
- The `exceptions` module is not part of this model; its three classes are constructors of `Errors.Error` carrying their text.
- Json.Repr: Python's `repr` of floats and dicts is a fixed placeholder, and strings are always single-quoted without escaping; this only affects the text of error messages and of non-string homework names.
- Access.Index: the text of the type errors follows CPython's wording, which differs between Python versions.
- Json.Value: the decoder behind `response.json()` (line 61) also accepts `NaN`, `Infinity` and `-Infinity`, which a `real` cannot hold; such a number can become the cursor (line 113), a homework name shown in the announcement (line 91, as "nan" or "inf"), or part of an error text, and is not modelled.
- Exceptions outside `Exception` (a keyboard interrupt during the sleep) are not modelled.

=== FILE: access.dfy ===
/** The three Python operations the bot applies to parsed payloads of
    unknown shape: `key in v`, `v.get(key, default)` and `v[key]`, each with
    the exception CPython raises when `v` has the wrong type. */
module Access {
  import opened Json
  import opened Errors
  import opened Results

  /** `key in container` for a string `key`: dict membership, list element
      equality, or substring search; other types are not iterable. */
  function In(key: string, container: Value): (r: Result<bool, Error>)
    ensures r.Failure? <==> !(container.Object? || container.List? || container.Str?)
    ensures container.Object? ==> r == Success(key in container.fields)
    ensures container.List? ==> r == Success(Str(key) in container.items)
  {
    match container
    case Object(fields) => Success(key in fields)
    case List(items) => Success(Str(key) in items)
    case Str(s) => Success(Occurs(key, s))
    case _ => Failure(TypeError("argument of type '" + TypeName(container) + "' is not iterable"))
  }

  /** `v.get(key, default)`: only dicts have a `get` method. */
  function Get(v: Value, key: string, default: Value): (r: Result<Value, Error>)
    ensures r.Failure? <==> !v.Object?
    ensures r.Failure? ==> r.error.AttributeError?
    ensures v.Object? && key in v.fields ==> r == Success(v.fields[key])
    ensures v.Object? && key !in v.fields ==> r == Success(default)
  {
    match v
    case Object(fields) => Success(if key in fields then fields[key] else default)
    case _ => Failure(AttributeError("'" + TypeName(v) + "' object has no attribute 'get'"))
  }

  /** `v[key]` for a string `key`. */
  function Index(v: Value, key: string): (r: Result<Value, Error>)
    ensures r.Success? <==> v.Object? && key in v.fields
    ensures r.Success? ==> r.value == v.fields[key]
    ensures v.Object? && key !in v.fields ==> r == Failure(KeyError(Str(key)))
    ensures !v.Object? ==> r.Failure? && r.error.TypeError?
  {
    match v
    case Object(fields) => if key in fields then Success(fields[key]) else Failure(KeyError(Str(key)))
    case Str(_) => Failure(TypeError("string indices must be integers"))
    case List(_) => Failure(TypeError("list indices must be integers or slices, not str"))
    case _ => Failure(TypeError("'" + TypeName(v) + "' object is not subscriptable"))
  }
}

=== FILE: bot.dfy ===
/** The start-up of `main` and one cycle of its polling loop as a pure step
    function over the loop's two variables (homework.py:32-45, 100-135). */
module Bot {
  import opened Json
  import opened Errors
  import opened Results
  import opened Access
  import opened Validator
  import opened Status
  import opened Tokens

  const NoNews := "Нет новых статусов"
  const FailureHead := "Сбой в работе программы: "
  const SendFailureHead := "Ошибка отправки статуса в Telegram: "
  const TokensMissing := "Отсутствует токен. Бот остановлен!"

  /** The loop's variables: the poll cursor `current_timestamp` (whatever
      value the last payload carried) and the last message sent, `prev_msg`. */
  datatype State = State(cursor: Value, prevMsg: string)

  /** What `get_api_answer` did this cycle: raised, or returned a parsed body. */
  datatype Fetch = Raised(error: Error) | Answer(body: Value)

  /** What the messaging client does with one message: accept it, raise
      the library's `telegram.error.TelegramError` with a text, or raise any
      other exception, which `send_message` does not catch. */
  datatype Reply = Accepted | Refused(reason: string) | Broken(error: Error)

  /** Everything outside the bot one cycle depends on: the API's outcome,
      the wall-clock second read at line 114, and the messaging API. */
  datatype Cycle = Cycle(fetch: Fetch, now: int, bot: string -> Reply)

  /** A cycle either ends in the `finally` sleep with new loop variables and
      at most one delivered message, or an exception escapes the handler. */
  datatype StepResult = Continue(next: State, sent: Option<string>) | Crash(error: Error)

  /** The state the try block of one cycle leaves behind: the cursor after
      line 113 and the candidate message, or the exception raised. */
  datatype Attempt = Attempt(cursor: Value, message: Result<string, Error>)

  /** Start-up: the token check decides between exiting with a fixed
      message and entering the loop with the clock as cursor and no message. */
  function Start(c: Credentials, now: int): (r: Result<State, string>)
    ensures r.Success? <==> Given(c.practicum) && Given(c.telegram) && Given(c.chatId)
    ensures r.Success? ==> r.value.cursor == Int(now) && r.value.prevMsg == ""
    ensures r.Failure? ==> r.error == TokensMissing
  {
    if !CheckTokens(c) then Failure(TokensMissing) else Success(State(Int(now), ""))
  }

  /** The `from_date` sent to the API (line 45): the cursor, unless it is
      falsy, in which case the clock. A cycle's `fetch` is the API's answer to
      the request stamped this way; the model takes that answer as given, so
      nothing else in a cycle depends on the stamp. */
  function RequestStamp(cursor: Value, now: int): (stamp: Value)
    ensures Truthy(cursor) ==> stamp == cursor
    ensures !Truthy(cursor) ==> stamp == Int(now)
    ensures now != 0 ==> Truthy(stamp)
  {
    if Truthy(cursor) then cursor else Int(now)
  }

  /** `send_message`: the library's refusal becomes the project's
      `TelegramError`, whose text wraps the library's; any other exception of
      the client passes through unchanged. */
  function SendMessage(bot: string -> Reply, message: string): (r: Outcome<Error>)
    ensures r.Pass? <==> bot(message).Accepted?
    ensures bot(message).Refused? ==> r == Fail(TelegramError(SendFailureHead + bot(message).reason))
    ensures bot(message).Broken? ==> r == Fail(bot(message).error)
  {
    match bot(message)
    case Accepted => Pass
    case Refused(reason) => Fail(TelegramError(SendFailureHead + reason))
    case Broken(err) => Fail(err)
  }

  /** The try block of one cycle up to the candidate message (lines 112-120).
      The cursor is read with `get` before validation, so a body that is not
      a mapping fails there, with an attribute error rather than the type
      error of the validator, and leaves the cursor alone; a mapping moves
      the cursor even when validation then fails. */
  function Poll(cursor: Value, fetch: Fetch, now: int): (a: Attempt)
    ensures fetch.Raised? ==> a == Attempt(cursor, Failure(fetch.error))
    ensures fetch.Answer? && !fetch.body.Object? ==>
      a.cursor == cursor && a.message.Failure? && a.message.error.AttributeError?
    ensures fetch.Answer? && fetch.body.Object? ==>
      a.cursor == (if "current_date" in fetch.body.fields then fetch.body.fields["current_date"] else Int(now))
    ensures fetch.Answer? && fetch.body.Object? && !ValidResponse(fetch.body) ==>
      a.message == Failure(CheckResponse(fetch.body).error)
    ensures fetch.Answer? && ValidResponse(fetch.body) && fetch.body.fields["homeworks"].items == [] ==>
      a.message == Success(NoNews)
    ensures fetch.Answer? && ValidResponse(fetch.body) && fetch.body.fields["homeworks"].items != [] ==>
      a.message == ParseStatus(fetch.body.fields["homeworks"].items[0])
  {
    match fetch
    case Raised(e) => Attempt(cursor, Failure(e))
    case Answer(body) =>
      match Get(body, "current_date", Int(now))
      case Failure(e) => Attempt(cursor, Failure(e))
      case Success(date) =>
        match CheckResponse(body)
        case Failure(e) => Attempt(date, Failure(e))
        case Success(homeworks) =>
          Attempt(date, if |homeworks| > 0 then ParseStatus(homeworks[0]) else Success(NoNews))
  }

  /** The notification an exception turns into (line 128). */
  function FailureMessage(e: Error): string
  {
    FailureHead + Describe(e)
  }

  /** The message a cycle's outcome calls for: the candidate, or the failure
      notification for the exception raised. */
  function Notice(message: Result<string, Error>): (m: string)
    ensures message.Failure? ==> FailureHead <= m
  {
    match message
    case Success(m) => m
    case Failure(e) => FailureMessage(e)
  }

  /** No message a cycle calls for is empty: a candidate is a verdict
      sentence or the "no new statuses" text, a failure has its heading. */
  lemma NoticeNeverEmpty(cursor: Value, fetch: Fetch, now: int)
    ensures Notice(Poll(cursor, fetch, now).message) != ""
  {
  }

  /** The exception handler (lines 127-133): the failure notification is
      sent unless it repeats the last message; a refusal here escapes. */
  function Report(s: State, e: Error, bot: string -> Reply): (r: StepResult)
    ensures FailureMessage(e) == s.prevMsg ==> r == Continue(s, None)
    ensures FailureMessage(e) != s.prevMsg && bot(FailureMessage(e)).Accepted? ==>
      r == Continue(s.(prevMsg := FailureMessage(e)), Some(FailureMessage(e)))
    ensures r.Crash? <==> FailureMessage(e) != s.prevMsg && !bot(FailureMessage(e)).Accepted?
    ensures r.Crash? ==> r.error == SendMessage(bot, FailureMessage(e)).error
  {
    var message := FailureMessage(e);
    if message == s.prevMsg then Continue(s, None)
    else match SendMessage(bot, message)
      case Pass => Continue(s.(prevMsg := message), Some(message))
      case Fail(err) => Crash(err)
  }

  /** One full cycle of the loop (lines 111-133). A message is delivered only
      when it differs from the last one delivered, which it then replaces;
      only the messaging client can end the loop. */
  function Step(s: State, c: Cycle): (r: StepResult)
    ensures r.Continue? ==> r.next.cursor == Poll(s.cursor, c.fetch, c.now).cursor
    ensures var a := Poll(s.cursor, c.fetch, c.now);
            a.message.Success? && a.message.value != s.prevMsg && c.bot(a.message.value).Accepted? ==>
              r == Continue(State(a.cursor, a.message.value), Some(a.message.value))
    ensures r.Continue? && r.sent.Some? ==> r.sent.value != s.prevMsg
    ensures r.Continue? ==> r.next.prevMsg == if r.sent.Some? then r.sent.value else s.prevMsg
  {
    var attempt := Poll(s.cursor, c.fetch, c.now);
    var s' := s.(cursor := attempt.cursor);
    match attempt.message
    case Success(message) =>
      if message == s.prevMsg then Continue(s', None)
      else (
        match SendMessage(c.bot, message)
        case Pass => Continue(s'.(prevMsg := message), Some(message))
        case Fail(err) => Report(s', err, c.bot))
    case Failure(e) => Report(s', e, c.bot)
  }

  /** A messaging API that accepts every message. */
  ghost predicate Reliable(bot: string -> Reply)
  {
    forall m :: bot(m) == Accepted
  }

  /** When the messaging client accepts the message a cycle calls for (or
      that message repeats the last one), the cycle does not crash and
      delivers its message exactly when it differs from the previous one,
      on the success path and on the failure path alike. */
  lemma StepDeduplicates(s: State, c: Cycle)
    requires var m := Notice(Poll(s.cursor, c.fetch, c.now).message);
             m == s.prevMsg || c.bot(m).Accepted?
    ensures var a := Poll(s.cursor, c.fetch, c.now);
            var m := Notice(a.message);
            Step(s, c) == Continue(State(a.cursor, m), if m != s.prevMsg then Some(m) else None)
  {
  }

  /** Every exception of a cycle's try block reaches the handler with the
      cursor the try block left: a failure of the API, of the cursor read,
      of validation or of formatting, and a failed delivery of a new
      candidate, whose exception is the one `send_message` raised. */
  lemma FailuresReachHandler(s: State, c: Cycle)
    ensures var a := Poll(s.cursor, c.fetch, c.now);
            a.message.Failure? ==> Step(s, c) == Report(State(a.cursor, s.prevMsg), a.message.error, c.bot)
    ensures var a := Poll(s.cursor, c.fetch, c.now);
            a.message.Success? && a.message.value != s.prevMsg && !c.bot(a.message.value).Accepted? ==>
              Step(s, c) == Report(State(a.cursor, s.prevMsg), SendMessage(c.bot, a.message.value).error, c.bot)
  {
  }

  /** The message a cycle calls for depends on the API's outcome alone, not
      on the cursor or the clock. */
  lemma NoticeIgnoresCursorAndClock(fetch: Fetch, cursor1: Value, now1: int, cursor2: Value, now2: int)
    ensures Poll(cursor1, fetch, now1).message == Poll(cursor2, fetch, now2).message
  {
  }

  /** Only the first homework of a valid payload is looked at: two payloads
      whose lists share their first element call for the same message. */
  lemma OnlyFirstHomeworkMatters(cursor: Value, now: int, body1: Value, body2: Value)
    requires ValidResponse(body1) && ValidResponse(body2)
    requires |body1.fields["homeworks"].items| > 0 && |body2.fields["homeworks"].items| > 0
    requires body1.fields["homeworks"].items[0] == body2.fields["homeworks"].items[0]
    ensures Poll(cursor, Answer(body1), now).message == Poll(cursor, Answer(body2), now).message
  {
  }

  /** A refused delivery on the success path is reported like any other
      exception, and the loop carries on once the report gets through. */
  lemma RefusedSendIsReported(s: State, c: Cycle, reason: string)
    requires Poll(s.cursor, c.fetch, c.now).message.Success?
    requires Poll(s.cursor, c.fetch, c.now).message.value != s.prevMsg
    requires c.bot(Poll(s.cursor, c.fetch, c.now).message.value) == Refused(reason)
    requires FailureMessage(TelegramError(SendFailureHead + reason)) != s.prevMsg
    requires c.bot(FailureMessage(TelegramError(SendFailureHead + reason))) == Accepted
    ensures var report := FailureMessage(TelegramError(SendFailureHead + reason));
            Step(s, c) == Continue(State(Poll(s.cursor, c.fetch, c.now).cursor, report), Some(report))
  {
  }

  /** A cycle crashes exactly when the exception handler has a new failure
      notification to send and the messaging client does not accept it: the
      API or validation failed, or the candidate was new and its delivery
      failed, and then the report of that failure is new and fails too. */
  lemma StepCrashesExactlyWhen(s: State, c: Cycle)
    ensures Step(s, c).Crash? <==>
      match Poll(s.cursor, c.fetch, c.now).message
      case Failure(e) => FailureMessage(e) != s.prevMsg && !c.bot(FailureMessage(e)).Accepted?
      case Success(m) =>
        && m != s.prevMsg
        && !c.bot(m).Accepted?
        && var report := FailureMessage(SendMessage(c.bot, m).error);
           report != s.prevMsg && !c.bot(report).Accepted?
  {
  }

  /** Where the loop stands after a sequence of cycles. */
  datatype End = Running(state: State) | Crashed(error: Error)

  /** The messages delivered by a sequence of cycles, and how it ended. */
  datatype Trace = Trace(sent: seq<string>, end: End)

  /** Runs the loop over a sequence of cycles, stopping at a crash. */
  function Run(s: State, cycles: seq<Cycle>): (t: Trace)
    ensures |t.sent| <= |cycles|
    ensures (forall i :: 0 <= i < |cycles| ==> Reliable(cycles[i].bot)) ==> t.end.Running?
    decreases |cycles|
  {
    if |cycles| == 0 then Trace([], Running(s))
    else match Step(s, cycles[0])
      case Crash(e) => Trace([], Crashed(e))
      case Continue(next, sent) =>
        var rest := Run(next, cycles[1..]);
        Trace((if sent.Some? then [sent.value] else []) + rest.sent, rest.end)
  }

  /** No message is delivered twice in a row. */
  predicate NoRepeats(sent: seq<string>)
  {
    forall i :: 0 < i < |sent| ==> sent[i - 1] != sent[i]
  }

  /** Whatever the API and the messaging API do, the delivered messages never
      repeat back to back, the first differs from the starting `prev_msg`,
      and a running loop remembers exactly the last message delivered. */
  lemma {:induction false} RunNeverRepeats(s: State, cycles: seq<Cycle>)
    ensures NoRepeats(Run(s, cycles).sent)
    ensures |Run(s, cycles).sent| > 0 ==> Run(s, cycles).sent[0] != s.prevMsg
    ensures Run(s, cycles).end.Running? ==>
      Run(s, cycles).end.state.prevMsg ==
        if |Run(s, cycles).sent| > 0 then Run(s, cycles).sent[|Run(s, cycles).sent| - 1] else s.prevMsg
    decreases |cycles|
  {
    if |cycles| > 0 {
      var r := Step(s, cycles[0]);
      if r.Continue? {
        var rest := Run(r.next, cycles[1..]);
        RunNeverRepeats(r.next, cycles[1..]);
        if r.sent.Some? {
          assert Run(s, cycles) == Trace([r.sent.value] + rest.sent, rest.end);
          PrependKeepsNoRepeats(r.sent.value, rest.sent);
        } else {
          assert Run(s, cycles) == rest;
        }
      }
    }
  }

  /** Putting a message in front of a repeat-free sequence that does not
      start with it keeps the sequence repeat-free. */
  lemma PrependKeepsNoRepeats(m: string, rest: seq<string>)
    requires NoRepeats(rest)
    requires |rest| > 0 ==> rest[0] != m
    ensures NoRepeats([m] + rest)
    ensures ([m] + rest)[|[m] + rest| - 1] == if |rest| > 0 then rest[|rest| - 1] else m
  {
  }

  /** Two consecutive cycles that call for the same message deliver it at
      most once, and exactly once when it is new, provided the first
      cycle's client accepts it; the second cycle's client is never asked. */
  lemma RepeatedMessageSentOnce(s: State, c1: Cycle, c2: Cycle)
    requires c1.bot(Notice(Poll(s.cursor, c1.fetch, c1.now).message)).Accepted?
    requires Notice(Poll(s.cursor, c1.fetch, c1.now).message) == Notice(Poll(s.cursor, c2.fetch, c2.now).message)
    ensures var m := Notice(Poll(s.cursor, c1.fetch, c1.now).message);
            Run(s, [c1, c2]).sent == if m != s.prevMsg then [m] else []
  {
    var m := Notice(Poll(s.cursor, c1.fetch, c1.now).message);
    StepDeduplicates(s, c1);
    var next := State(Poll(s.cursor, c1.fetch, c1.now).cursor, m);
    NoticeIgnoresCursorAndClock(c2.fetch, s.cursor, c2.now, next.cursor, c2.now);
    StepDeduplicates(next, c2);
    assert [c1, c2][1..] == [c2];
    assert [c2][1..] == [];
  }

  /** Two consecutive cycles that call for different messages deliver both,
      provided the first is new and each cycle's client accepts its message. */
  lemma DifferentMessagesSentTwice(s: State, c1: Cycle, c2: Cycle)
    requires c1.bot(Notice(Poll(s.cursor, c1.fetch, c1.now).message)).Accepted?
    requires c2.bot(Notice(Poll(s.cursor, c2.fetch, c2.now).message)).Accepted?
    requires Notice(Poll(s.cursor, c1.fetch, c1.now).message) != s.prevMsg
    requires Notice(Poll(s.cursor, c1.fetch, c1.now).message) != Notice(Poll(s.cursor, c2.fetch, c2.now).message)
    ensures Run(s, [c1, c2]).sent ==
      [Notice(Poll(s.cursor, c1.fetch, c1.now).message), Notice(Poll(s.cursor, c2.fetch, c2.now).message)]
  {
    var m := Notice(Poll(s.cursor, c1.fetch, c1.now).message);
    StepDeduplicates(s, c1);
    var next := State(Poll(s.cursor, c1.fetch, c1.now).cursor, m);
    NoticeIgnoresCursorAndClock(c2.fetch, s.cursor, c2.now, next.cursor, c2.now);
    StepDeduplicates(next, c2);
    assert [c1, c2][1..] == [c2];
    assert [c2][1..] == [];
  }

  /** Right after start-up the first cycle always delivers its message when
      the client accepts it, because no message a cycle calls for is empty. */
  lemma FirstCycleAlwaysSends(creds: Credentials, start: int, c: Cycle)
    requires CheckTokens(creds)
    requires c.bot(Notice(Poll(Int(start), c.fetch, c.now).message)).Accepted?
    ensures Start(creds, start).Success?
    ensures var s := Start(creds, start).value;
            Step(s, c).Continue? && Step(s, c).sent == Some(Notice(Poll(s.cursor, c.fetch, c.now).message))
  {
    var s := Start(creds, start).value;
    NoticeNeverEmpty(s.cursor, c.fetch, c.now);
    StepDeduplicates(s, c);
  }

  /** The announcement expected for an approved homework named "hw1",
      written out independently of the verdict table. */
  const Approved := "Изменился статус проверки работы \"hw1\", " + "Работа проверена: ревьюеру всё понравилось. Ура!"

  /** A homework accepted by the reviewer is announced with its verdict, when
      the client accepts the announcement, and the cursor moves to the
      payload's `current_date`. */
  lemma ApprovedHomeworkAnnounced(s: State, c: Cycle)
    requires c.bot(Approved).Accepted?
    requires c.fetch == Answer(Object(map[
      "homeworks" := List([Object(map["homework_name" := Str("hw1"), "status" := Str("approved")])]),
      "current_date" := Int(1000)]))
    requires s.prevMsg != Approved
    ensures Step(s, c) == Continue(State(Int(1000), Approved), Some(Approved))
  {
    var homework := Object(map["homework_name" := Str("hw1"), "status" := Str("approved")]);
    assert c.fetch.body.fields["homeworks"].items[0] == homework;
    assert ValidHomework(homework);
    assert Verdicts["approved"] == "Работа проверена: ревьюеру всё понравилось. Ура!";
    assert SentenceHead + "hw1" + SentenceGlue == "Изменился статус проверки работы \"hw1\", ";
    StepDeduplicates(s, c);
  }

  /** An empty list of homeworks is announced as "no new statuses" when the
      client accepts that message. */
  lemma EmptyListAnnounced(s: State, c: Cycle)
    requires c.bot("Нет новых статусов").Accepted?
    requires c.fetch == Answer(Object(map["homeworks" := List([]), "current_date" := Int(2000)]))
    ensures Step(s, c) == Continue(
      State(Int(2000), "Нет новых статусов"),
      if s.prevMsg != "Нет новых статусов" then Some("Нет новых статусов") else None)
  {
    StepDeduplicates(s, c);
  }

  /** A failed API call is reported when the client accepts the report; the
      loop keeps running, and the cursor stays where it was. */
  lemma ApiFailureReported(s: State, c: Cycle)
    requires c.fetch.Raised?
    requires c.bot("Сбой в работе программы: " + Describe(c.fetch.error)).Accepted?
    requires s.prevMsg != "Сбой в работе программы: " + Describe(c.fetch.error)
    ensures Step(s, c) == Continue(
      State(s.cursor, "Сбой в работе программы: " + Describe(c.fetch.error)),
      Some("Сбой в работе программы: " + Describe(c.fetch.error)))
  {
    StepDeduplicates(s, c);
  }
}

=== FILE: errors.dfy ===
/** The exceptions that reach the bot's broad `except Exception` handler. */
module Errors {
  import opened Json

  /** One raised exception. Built-in kinds carry the text Python gives them;
      `KeyError` carries the missing key, because its text is the key's `repr`.
      `EmptyResponse`, `InvalidResponseCode` and `TelegramError` are the
      project's own exception classes, whose module is not part of this model. */
  datatype Error =
    | TypeError(detail: string)
    | AttributeError(detail: string)
    | KeyError(key: Value)
    | ValueError(detail: string)
    | EmptyResponse(detail: string)
    | InvalidResponseCode(detail: string)
    | TelegramError(detail: string)

  /** `str(error)`: the text embedded in the failure notification. */
  function Describe(e: Error): (r: string)
    ensures e.KeyError? && e.key.Str? ==> r == "'" + e.key.s + "'"
    ensures !e.KeyError? ==> r == e.detail
  {
    match e
    case KeyError(key) => Repr(key)
    case _ => e.detail
  }
}

=== FILE: json.dfy ===
/** Parsed JSON payloads as the bot sees them after `response.json()`,
    together with the Python built-ins the bot applies to them. */
module Json {

  /** One JSON value. Objects are Python dicts with string keys. */
  datatype Value =
    | Null
    | Bool(b: bool)
    | Int(i: int)
    | Float(x: real)
    | Str(s: string)
    | List(items: seq<Value>)
    | Object(fields: map<string, Value>)

  /** The Python type name of a value, as it appears in exception texts. */
  function TypeName(v: Value): string
  {
    match v
    case Null => "NoneType"
    case Bool(_) => "bool"
    case Int(_) => "int"
    case Float(_) => "float"
    case Str(_) => "str"
    case List(_) => "list"
    case Object(_) => "dict"
  }

  /** Python truthiness: `None`, `False`, zero and empty containers are false. */
  predicate Truthy(v: Value)
  {
    match v
    case Null => false
    case Bool(b) => b
    case Int(i) => i != 0
    case Float(x) => x != 0.0
    case Str(s) => s != ""
    case List(items) => |items| > 0
    case Object(fields) => |fields| > 0
  }

  /** The falsy values are exactly `None`, `False`, `0`, `0.0`, the empty
      string, the empty list and the empty dict. */
  lemma FalsyExactly(v: Value)
    ensures !Truthy(v) <==> v in {Null, Bool(false), Int(0), Float(0.0), Str(""), List([]), Object(map[])}
  {
  }

  function DigitChar(d: nat): char
    requires d < 10
  {
    "0123456789"[d]
  }

  /** Decimal rendering of a natural number, most significant digit first. */
  function NatText(n: nat): (r: string)
    ensures |r| > 0
    decreases n
  {
    if n < 10 then [DigitChar(n)] else NatText(n / 10) + [DigitChar(n % 10)]
  }

  function IntText(i: int): string
  {
    if i < 0 then "-" + NatText(-i) else NatText(i)
  }

  /** Python `repr` of a value. Floats and dicts are rendered by a fixed
      placeholder; strings are always single-quoted and never escaped. */
  function Repr(v: Value): string
    decreases v, 1
  {
    match v
    case Null => "None"
    case Bool(b) => if b then "True" else "False"
    case Int(i) => IntText(i)
    case Float(_) => "<float>"
    case Str(s) => "'" + s + "'"
    case List(items) => "[" + ReprItems(items) + "]"
    case Object(_) => "{...}"
  }

  /** The comma-separated `repr`s of the elements of a list. */
  function ReprItems(items: seq<Value>): string
    decreases items, 0
  {
    if |items| == 0 then ""
    else if |items| == 1 then Repr(items[0])
    else Repr(items[0]) + ", " + ReprItems(items[1..])
  }

  /** Python `str`: a string is itself, anything else is its `repr`. */
  function Text(v: Value): (r: string)
    ensures v.Str? ==> r == v.s
    ensures v == Null ==> r == "None"
    ensures v.Bool? ==> r == if v.b then "True" else "False"
  {
    if v.Str? then v.s else Repr(v)
  }

  /** Python's `needle in hay` on two strings: `needle` is a substring of `hay`. */
  predicate Occurs(needle: string, hay: string)
    decreases |hay|
  {
    || needle <= hay
    || (|hay| > 0 && Occurs(needle, hay[1..]))
  }
}

=== FILE: results.dfy ===
/** Wrappers used to model the exceptions the bot raises
    as ordinary values. */
module Results {

  /** A value that may be absent, like Python's `None`-or-value. */
  datatype Option<+T> = None | Some(value: T)

  /** The value of a computation, or the exception it raised. */
  datatype Result<+T, +E> = Success(value: T) | Failure(error: E)

  /** A computation run for its effect only: it passed, or it raised. */
  datatype Outcome<+E> = Pass | Fail(error: E)
}

=== FILE: status.dfy ===
/** The verdict table `HOMEWORK_VERDICTS` and the status formatter
    `parse_status` (homework.py:25-29, 81-91). */
module Status {
  import opened Json
  import opened Errors
  import opened Results
  import opened Access

  /** The fixed status-to-verdict table. */
  const Verdicts: map<string, string> := map[
    "approved" := "Работа проверена: ревьюеру всё понравилось. Ура!",
    "reviewing" := "Работа взята на проверку ревьюером.",
    "rejected" := "Работа проверена: у ревьюера есть замечания."
  ]

  const MissingField := "Отсутсвует homework_name в ответе API"
  const UnknownStatus := "Неизвестный статус работы - "
  const SentenceHead := "Изменился статус проверки работы \""
  const SentenceGlue := "\", "

  /** The notification for one homework whose verdict is known. */
  function Sentence(name: string, verdict: string): string
  {
    SentenceHead + name + SentenceGlue + verdict
  }

  /** A status that is a key of the verdict table. */
  predicate Known(status: Value)
  {
    status.Str? && status.s in Verdicts
  }

  /** A homework record the formatter turns into a sentence. */
  predicate ValidHomework(homework: Value)
  {
    && homework.Object?
    && "homework_name" in homework.fields
    && "status" in homework.fields
    && Known(homework.fields["status"])
  }

  /** `HOMEWORK_VERDICTS[status]`: lists and dicts are unhashable, any other
      value that is not a key is missing. */
  function Lookup(status: Value): (r: Result<string, Error>)
    ensures r.Success? <==> Known(status)
    ensures r.Success? ==> r.value == Verdicts[status.s]
    ensures r.Failure? ==> (r.error.TypeError? <==> status.List? || status.Object?)
    ensures r.Failure? && !r.error.TypeError? ==> r.error == KeyError(status)
  {
    match status
    case List(_) => Failure(TypeError("unhashable type: 'list'"))
    case Object(_) => Failure(TypeError("unhashable type: 'dict'"))
    case Str(s) => if s in Verdicts then Success(Verdicts[s]) else Failure(KeyError(status))
    case _ => Failure(KeyError(status))
  }

  /** Turns one homework record into its notification. The steps run in the
      order of homework.py: the two membership tests, the name subscript, the
      status `get`, the table lookup, and only then the membership test of
      the status, whose `ValueError` branch is therefore dead. */
  function ParseStatus(homework: Value): (r: Result<string, Error>)
    ensures r.Success? <==> ValidHomework(homework)
    ensures ValidHomework(homework) ==>
      r.value == Sentence(Text(homework.fields["homework_name"]), Verdicts[homework.fields["status"].s])
    ensures homework.Object? && !("homework_name" in homework.fields && "status" in homework.fields) ==>
      r == Failure(KeyError(Str(MissingField)))
    ensures !homework.Object? ==> r.Failure? && (r.error.TypeError? || r.error == KeyError(Str(MissingField)))
  {
    match In("homework_name", homework)
    case Failure(e) => Failure(e)
    case Success(hasName) =>
      if !hasName then Failure(KeyError(Str(MissingField)))
      else match In("status", homework)
      case Failure(e) => Failure(e)
      case Success(hasStatus) =>
        if !hasStatus then Failure(KeyError(Str(MissingField)))
        else match Index(homework, "homework_name")
        case Failure(e) => Failure(e)
        case Success(name) =>
          match Get(homework, "status", Null)
          case Failure(e) => Failure(e)
          case Success(status) =>
            match Lookup(status)
            case Failure(e) => Failure(e)
            case Success(verdict) =>
              if !Known(status) then Failure(ValueError(UnknownStatus + Text(status)))
              else Success(Sentence(Text(name), verdict))
  }

  /** A record whose status is not a table key fails at the lookup itself:
      a missing key for a hashable status, a type error for a list or dict. */
  lemma UnknownStatusFailsAtLookup(homework: Value)
    requires homework.Object? && "homework_name" in homework.fields && "status" in homework.fields
    requires !Known(homework.fields["status"])
    ensures ParseStatus(homework) == Lookup(homework.fields["status"])
    ensures homework.fields["status"].Str? ==> ParseStatus(homework) == Failure(KeyError(homework.fields["status"]))
  {
  }

  /** No record at all makes the formatter raise the "unknown status" error. */
  lemma ValueErrorUnreachable(homework: Value)
    ensures !(ParseStatus(homework).Failure? && ParseStatus(homework).error.ValueError?)
  {
  }

  /** A needle surrounded by any text occurs in it. */
  lemma {:induction false} OccursInside(needle: string, before: string, after: string)
    ensures Occurs(needle, before + needle + after)
    decreases |before|
  {
    var whole := before + needle + after;
    if |before| == 0 {
      assert whole == needle + after;
      assert needle <= whole;
    } else {
      assert whole[1..] == before[1..] + needle + after;
      OccursInside(needle, before[1..], after);
    }
  }

  /** A well-formed record's sentence mentions both the homework's name and
      the exact verdict text of its status. */
  lemma SentenceMentionsNameAndVerdict(homework: Value)
    requires ValidHomework(homework)
    ensures Occurs(Text(homework.fields["homework_name"]), ParseStatus(homework).value)
    ensures Occurs(Verdicts[homework.fields["status"].s], ParseStatus(homework).value)
  {
    var name := Text(homework.fields["homework_name"]);
    var verdict := Verdicts[homework.fields["status"].s];
    assert Sentence(name, verdict) == SentenceHead + name + (SentenceGlue + verdict);
    OccursInside(name, SentenceHead, SentenceGlue + verdict);
    assert Sentence(name, verdict) == (SentenceHead + name + SentenceGlue) + verdict + "";
    OccursInside(verdict, SentenceHead + name + SentenceGlue, "");
  }

  /** Two sentences about the same name are equal only for equal verdicts. */
  lemma SentenceDeterminesVerdict(name: string, v1: string, v2: string)
    requires Sentence(name, v1) == Sentence(name, v2)
    ensures v1 == v2
  {
    var k := |SentenceHead + name + SentenceGlue|;
    assert Sentence(name, v1)[k..] == v1;
    assert Sentence(name, v2)[k..] == v2;
  }

  /** A change of status of the same homework always changes the sentence,
      so deduplication can never swallow a status change. */
  lemma StatusChangeChangesSentence(h1: Value, h2: Value)
    requires ValidHomework(h1) && ValidHomework(h2)
    requires h1.fields["homework_name"] == h2.fields["homework_name"]
    requires h1.fields["status"] != h2.fields["status"]
    ensures ParseStatus(h1) != ParseStatus(h2)
  {
    var s1 := h1.fields["status"].s;
    var s2 := h2.fields["status"].s;
    if ParseStatus(h1) == ParseStatus(h2) {
      SentenceDeterminesVerdict(Text(h1.fields["homework_name"]), Verdicts[s1], Verdicts[s2]);
      assert false;
    }
  }
}

=== FILE: tokens.dfy ===
/** The credential check `check_tokens` (homework.py:94-97). */
module Tokens {
  import opened Results

  /** The three environment values the bot reads at start-up; each is
      absent when the variable is not set. */
  datatype Credentials = Credentials(practicum: Option<string>, telegram: Option<string>, chatId: Option<string>)

  /** Truthiness of one environment value: set and non-empty. */
  predicate Given(v: Option<string>)
  {
    v.Some? && v.value != ""
  }

  /** Python's `all` over a list of environment values. */
  function AllGiven(values: seq<Option<string>>): (r: bool)
    ensures r <==> forall i :: 0 <= i < |values| ==> Given(values[i])
  {
    if |values| == 0 then true else Given(values[0]) && AllGiven(values[1..])
  }

  /** True exactly when every one of the three credentials is given. */
  function CheckTokens(c: Credentials): (ok: bool)
    ensures ok <==> Given(c.practicum) && Given(c.telegram) && Given(c.chatId)
  {
    var values := [c.practicum, c.telegram, c.chatId];
    assert values[0] == c.practicum && values[1] == c.telegram && values[2] == c.chatId;
    AllGiven(values)
  }

  /** A single absent or empty credential is enough to fail the check. */
  lemma OneMissingCredentialFails(c: Credentials)
    requires !Given(c.practicum) || !Given(c.telegram) || !Given(c.chatId)
    ensures !CheckTokens(c)
  {
  }
}

=== FILE: validator.dfy ===
/** The response validator `check_response` (homework.py:68-78). */
module Validator {
  import opened Json
  import opened Errors
  import opened Results

  const NotADict := "Ответ API не является словарём"
  const MissingKeys := "В ответе отсутствует ключ homeworks"
  const NotAList := "homeworks не является списком"

  /** A mapping that carries both keys the API promises. */
  predicate HasRequiredKeys(response: Value)
  {
    response.Object? && "homeworks" in response.fields && "current_date" in response.fields
  }

  /** A payload the bot accepts: both keys present and `homeworks` a list. */
  predicate ValidResponse(response: Value)
  {
    HasRequiredKeys(response) && response.fields["homeworks"].List?
  }

  /** Checks the shape of a parsed payload and returns its `homeworks` list.
      The three failures are told apart by kind and text: the type error of
      line 72 happens exactly for non-mappings, the missing-key error is
      checked before the list-type error of line 77. */
  function CheckResponse(response: Value): (r: Result<seq<Value>, Error>)
    ensures r.Success? <==> ValidResponse(response)
    ensures r.Success? ==> r.value == response.fields["homeworks"].items
    ensures r == Failure(TypeError(NotADict)) <==> !response.Object?
    ensures r == Failure(EmptyResponse(MissingKeys)) <==> response.Object? && !HasRequiredKeys(response)
    ensures r == Failure(TypeError(NotAList)) <==> HasRequiredKeys(response) && !ValidResponse(response)
  {
    if !response.Object? then
      Failure(TypeError(NotADict))
    else if "homeworks" !in response.fields || "current_date" !in response.fields then
      Failure(EmptyResponse(MissingKeys))
    else
      var homeworks := response.fields["homeworks"];
      if !homeworks.List? then Failure(TypeError(NotAList)) else Success(homeworks.items)
  }

  /** An empty `homeworks` list is a success, not an error. */
  lemma EmptyListAccepted(date: Value)
    ensures CheckResponse(Object(map["homeworks" := List([]), "current_date" := date])) == Success([])
  {
  }
}
